=== FILE: README.md ===
# Media player playground: navigation, transport and display model

This project models the logic of a small cross-platform media-player demo
in Dafny. The demo is a screen with track metadata, a progress bar and
play/pause, next and previous buttons. The model covers three parts:

- **The iOS player adapter** (`MediaPlayerImpl` for iOS, module
  `IosMediaPlayer`). It keeps an index into a fixed list of tracks,
  starting at -1. `init` loads track 0. `goToNext` and `goToPrevious` move
  the index or, at the ends of the list, stop or rewind. `playPause` toggles
  on the player's playing flag. Two key-value observers republish the native
  player's state as a `Playback` snapshot and start or cancel progress
  polling. The `AVPlayer` and its audio session become a record of flags:
  playing, at time zero, session active, the current item and its status.
  Each call into them becomes an update of those flags. Each native callback
  (play-state change, item status change, asset loaded, end of track) becomes
  an event function. One more event, `OnTimeAdvanced`, stands for the native
  player's clock rather than a callback of the adapter: a playing player
  leaves time zero, and nothing else changes. `Run` applies any sequence of
  events.
- **The shared view model** (`MainViewModel`, modules `MainViewModel` and
  `DisplayTime`). It projects `Playback` and the current `Track` onto the
  UI-facing `PlayerState`, and `buildDisplayTime` renders durations as
  zero-padded `MM:SS`. `DisplayTime` spells out the Kotlin library pieces
  this relies on: `Duration.toComponents` (which rounds toward zero),
  `Long.toString` and `padStart`. A parser, `ParseDisplayTime`, serves as
  the reference that the rendering is proved against.
- **The shared value types** (`MediaPlayer`). `Playback`, `Progress`, and
  `Track` with its `Metadata` are immutable datatypes holding plain strings,
  booleans and durations. The defaults are constants. A duration is a whole
  number of nanoseconds. A `Float` is a `real`.

Module `IosScreen` connects the two sides. It states what the screen shows
when the iOS adapter is the player behind the view model.

`release` is not idempotent: it removes the play-state observer on every
call (MediaPlayerImpl.kt:91), and the model makes no idempotence claim.
`goToPrevious` calls `player.play()` directly, without activating the
audio session as `goToNext` does. The model keeps this behaviour
(`PreviousAfterPausePlaysWithInactiveSession`).

An `init` on an empty list throws, but only after it has registered the
play-state observer, stored the empty list, set the index to 0 and removed
the item observers. The model returns that state inside the error. It is
outside `Valid()` (index 0 with no tracks), so navigation requires only
`IndexSafe()`: the index lies in `-1..|tracks|`. Every state the adapter
reaches has this property, including that one.

## Model

| member | source | states |
|---|---|---|
| MediaPlayer.DefaultsAreIdle | composeApp/src/commonMain/kotlin/com/filippo/mediaplayerplayground/media/MediaPlayer.kt:20-31 | The default `Playback` is not loading, not playing, has zero duration and neither a next nor a previous track; the default `Progress` has position 0 and elapsed time 0 |
| IosMediaPlayer.New | composeApp/src/iosMain/kotlin/com/filippo/mediaplayerplayground/media/MediaPlayerImpl.kt:60-69 | A new adapter wraps the given native player and has index -1, no tracks, no current track, the default `Playback`, no progress job and no registered observer; it is a valid state but not yet initialized |
| IosMediaPlayer.Init | composeApp/src/iosMain/kotlin/com/filippo/mediaplayerplayground/media/MediaPlayerImpl.kt:71-87 | `init` succeeds exactly when the list is non-empty. It then points at index 0 with `currentTrack == tracks[0]`, keeps the list and has the play-state observer registered. The player holds a new item for the first track, at time zero with unknown status and the status observer on it, and no boundary observer. Transport, session, `Playback` and progress job are unchanged. On an empty list it throws an out-of-bounds error carrying the state reached before the throw: observer registered, empty list, index 0, item observers removed, everything else unchanged; that state is index-safe but not valid |
| IosMediaPlayer.AfterFailedInit | composeApp/src/iosMain/kotlin/com/filippo/mediaplayerplayground/media/MediaPlayerImpl.kt:105-121 | After an `init` on an empty list has thrown, `goToNext` stops at index 0, `goToPrevious` only rewinds at index 0, and the play-state observer publishes `hasNext == false` |
| IosMediaPlayer.Release | composeApp/src/iosMain/kotlin/com/filippo/mediaplayerplayground/media/MediaPlayerImpl.kt:89-95 | `release` leaves the player paused at time zero with the session inactive and the current item unchanged. The progress job is cancelled and dropped and the play-state observer removed. Index, track and item observers are unchanged |
| IosMediaPlayer.PlayPause | composeApp/src/iosMain/kotlin/com/filippo/mediaplayerplayground/media/MediaPlayerImpl.kt:97-103 | `playPause` flips the playing flag and leaves the session active exactly when the player now plays; nothing outside the transport and session changes |
| IosMediaPlayer.GoToPrevious | composeApp/src/iosMain/kotlin/com/filippo/mediaplayerplayground/media/MediaPlayerImpl.kt:105-112 | At index 0 (or -1) only rewinds: nothing but the position changes. Otherwise moves to the previous index and its track and plays, leaving the session as it was. The player then holds a new item for that track with unknown status and the status observer on it, no boundary observer, and the play-state observer and progress job as before. Index safety, validity and initialization are preserved |
| IosMediaPlayer.GoToNext | composeApp/src/iosMain/kotlin/com/filippo/mediaplayerplayground/media/MediaPlayerImpl.kt:114-121 | When no next track exists (on the last track, or with no tracks) keeps index and track and pauses, rewinds and deactivates the session, changing nothing else. Otherwise moves to the next index and its track, with the session active and playing. The player then holds a new item for that track with unknown status and the status observer on it, no boundary observer, and the play-state observer and progress job as before. Index safety, validity and initialization are preserved |
| IosMediaPlayer.LoadTrack | composeApp/src/iosMain/kotlin/com/filippo/mediaplayerplayground/media/MediaPlayerImpl.kt:123-142 | Loading sets the index and publishes that track, replaces the current item with a new one at time zero in unknown status, registers the status observer, drops the boundary observer, and leaves transport, session and `Playback` untouched |
| IosMediaPlayer.Stop | composeApp/src/iosMain/kotlin/com/filippo/mediaplayerplayground/media/MediaPlayerImpl.kt:179-183 | `stop` leaves the player paused at time zero with the session inactive and the current item unchanged, and changes nothing else |
| IosMediaPlayer.NativePlay | composeApp/src/iosMain/kotlin/com/filippo/mediaplayerplayground/media/MediaPlayerImpl.kt:171 | `player.play()` makes the player play and changes nothing else |
| IosMediaPlayer.NativePause | composeApp/src/iosMain/kotlin/com/filippo/mediaplayerplayground/media/MediaPlayerImpl.kt:175 | `player.pause()` stops the player playing and changes nothing else |
| IosMediaPlayer.SetSessionState | composeApp/src/iosMain/kotlin/com/filippo/mediaplayerplayground/media/MediaPlayerImpl.kt:144-154 | The audio session ends up active exactly when requested, and nothing else changes |
| IosMediaPlayer.SeekToInitialTime | composeApp/src/iosMain/kotlin/com/filippo/mediaplayerplayground/media/MediaPlayerImpl.kt:185-192 | The player ends up at time zero, and nothing else changes |
| IosMediaPlayer.Play | composeApp/src/iosMain/kotlin/com/filippo/mediaplayerplayground/media/MediaPlayerImpl.kt:169-172 | The private `play` leaves the session active and the player playing, and changes nothing else |
| IosMediaPlayer.Pause | composeApp/src/iosMain/kotlin/com/filippo/mediaplayerplayground/media/MediaPlayerImpl.kt:174-177 | The private `pause` leaves the player paused and the session inactive, and changes nothing else |
| IosMediaPlayer.RemoveCurrentItemObservers | composeApp/src/iosMain/kotlin/com/filippo/mediaplayerplayground/media/MediaPlayerImpl.kt:210-216 | Afterwards no boundary-time observer and no status observer are registered, and nothing else changes |
| IosMediaPlayer.OnItemStatusChanged | composeApp/src/iosMain/kotlin/com/filippo/mediaplayerplayground/media/MediaPlayerImpl.kt:228-241 | The item status becomes the new one. With the status observer on the current item, `isLoading` becomes "status is unknown"; without it `Playback` is unchanged. Nothing else changes |
| IosMediaPlayer.OnTimeControlStatusChanged | composeApp/src/iosMain/kotlin/com/filippo/mediaplayerplayground/media/MediaPlayerImpl.kt:243-264 | With the observer registered it publishes `isPlaying` equal to the player's flag, `hasPrevious` true, and `hasNext` exactly when `currentIndex + 1 <= lastIndex`; the progress job runs exactly when the player plays, and when paused an existing job is cancelled and no job stays no job; other `Playback` fields and all other state are unchanged; without the observer nothing changes |
| IosMediaPlayer.CancelJob | composeApp/src/iosMain/kotlin/com/filippo/mediaplayerplayground/media/MediaPlayerImpl.kt:261 | `progressJob?.cancel()` never leaves a running job: an existing job ends up cancelled and no job stays no job |
| IosMediaPlayer.OnAssetLoaded | composeApp/src/iosMain/kotlin/com/filippo/mediaplayerplayground/media/MediaPlayerImpl.kt:156-167 | Once the current item's duration is known a boundary-time observer is registered, and nothing else changes |
| IosMediaPlayer.OnTrackEnd | composeApp/src/iosMain/kotlin/com/filippo/mediaplayerplayground/media/MediaPlayerImpl.kt:161-166 | Reaching the end of a track with the boundary observer registered behaves exactly as `goToNext` |
| IosMediaPlayer.StepKeepsIndexInRange | composeApp/src/iosMain/kotlin/com/filippo/mediaplayerplayground/media/MediaPlayerImpl.kt:105-127 | Every command and callback keeps a valid adapter valid and an initialized adapter initialized |
| IosMediaPlayer.IndexStaysInRange | composeApp/src/iosMain/kotlin/com/filippo/mediaplayerplayground/media/MediaPlayerImpl.kt:105-127 | After `init`, under any sequence of play/pause, next, previous, track-end, observer events and release, `currentIndex` stays in `0..lastIndex` and `currentTrack` is `tracks[currentIndex]` |
| IosMediaPlayer.HasNextIffNextAdvances | composeApp/src/iosMain/kotlin/com/filippo/mediaplayerplayground/media/MediaPlayerImpl.kt:250-256 | The published `hasNext` is true exactly when `goToNext` would move to another track instead of stopping |
| IosMediaPlayer.PreviousUndoesNext | composeApp/src/iosMain/kotlin/com/filippo/mediaplayerplayground/media/MediaPlayerImpl.kt:105-121 | From any track but the last, `goToNext` then `goToPrevious` returns to the same index and track |
| IosMediaPlayer.NextUndoesPrevious | composeApp/src/iosMain/kotlin/com/filippo/mediaplayerplayground/media/MediaPlayerImpl.kt:105-121 | From any track but the first, `goToPrevious` then `goToNext` returns to the same index and track |
| IosMediaPlayer.NextAtEndIsIdempotent | composeApp/src/iosMain/kotlin/com/filippo/mediaplayerplayground/media/MediaPlayerImpl.kt:114-121 | Whenever no next track exists (on the last track, or with no tracks), a second `goToNext` changes nothing beyond the first |
| IosMediaPlayer.PlayPauseTwiceRestores | composeApp/src/iosMain/kotlin/com/filippo/mediaplayerplayground/media/MediaPlayerImpl.kt:97-103 | When the session is active exactly while playing, two `playPause` calls restore the adapter exactly |
| IosMediaPlayer.PreviousAfterPausePlaysWithInactiveSession | composeApp/src/iosMain/kotlin/com/filippo/mediaplayerplayground/media/MediaPlayerImpl.kt:108-110 | Pausing and then stepping back to an earlier track plays while the audio session stays inactive |
| DisplayTime.NatToString | composeApp/src/commonMain/kotlin/com/filippo/mediaplayerplayground/MainViewModel.kt:42-44 | Decimal rendering of a non-negative number: at least one character, all digits, denotes the number, no leading zero, and has exactly as many digits as the number needs |
| DisplayTime.IntToString | composeApp/src/commonMain/kotlin/com/filippo/mediaplayerplayground/MainViewModel.kt:42-44 | Rendering of a signed number: the digits of the magnitude with no leading zero, after a minus sign when negative |
| DisplayTime.PadStart | composeApp/src/commonMain/kotlin/com/filippo/mediaplayerplayground/MainViewModel.kt:42-44 | `padStart` never truncates: the result is as long as the larger of `length` and the length of `s`, ends with `s`, and everything before `s` is the pad character |
| DisplayTime.ToComponents | composeApp/src/commonMain/kotlin/com/filippo/mediaplayerplayground/MainViewModel.kt:41 | `toComponents` splits the whole seconds into minutes and seconds (`60 * minutes + seconds`); both are non-negative with seconds below 60 for a non-negative duration, and both are non-positive for a negative one |
| DisplayTime.MinutesFromSeconds | composeApp/src/commonMain/kotlin/com/filippo/mediaplayerplayground/MainViewModel.kt:41 | Counting whole minutes from nanoseconds equals counting them from whole seconds, both rounding toward zero |
| DisplayTime.ComponentsOfWholeSeconds | composeApp/src/commonMain/kotlin/com/filippo/mediaplayerplayground/MainViewModel.kt:41 | For a non-negative duration the components are exactly the quotient and remainder of its whole seconds by 60 |
| DisplayTime.Field | composeApp/src/commonMain/kotlin/com/filippo/mediaplayerplayground/MainViewModel.kt:42-44 | One field is at least 2 characters. A non-negative number gives all digits denoting it, exactly 2 long precisely when it is below 100, and with no leading zero when longer. A negative number gives a minus sign and the digits of its magnitude, with no leading zero |
| DisplayTime.BuildDisplayTime | composeApp/src/commonMain/kotlin/com/filippo/mediaplayerplayground/MainViewModel.kt:40-46 | For a non-negative duration the text is at least 5 characters and its only `:` is third from the end. The last two digits give the seconds (00..59). The digits before the colon give the total whole minutes, with no leading zero once they exceed two digits. The text is exactly 5 characters precisely when the minutes are below 100 |
| DisplayTime.DisplayTimeRoundTrip | composeApp/src/commonMain/kotlin/com/filippo/mediaplayerplayground/MainViewModel.kt:40-46 | Parsing the text of a non-negative duration gives back its whole seconds |
| DisplayTime.DisplayTimeEqualIff | composeApp/src/commonMain/kotlin/com/filippo/mediaplayerplayground/MainViewModel.kt:40-46 | Two non-negative durations render to the same text exactly when they have the same number of whole seconds |
| DisplayTime.WholeSeconds | composeApp/src/commonMain/kotlin/com/filippo/mediaplayerplayground/MainViewModel.kt:41 | `inWholeSeconds` counts whole seconds rounding toward zero: what remains is less than a second and has the sign of the duration |
| DisplayTime.ZeroDisplayTime | composeApp/src/commonMain/kotlin/com/filippo/mediaplayerplayground/MainViewModel.kt:40-46 | A zero duration renders as `00:00` |
| DisplayTime.NegativeDisplayTimeExample | composeApp/src/commonMain/kotlin/com/filippo/mediaplayerplayground/MainViewModel.kt:41-44 | A duration of minus 90 seconds renders as `-1:-30`, since both components keep their sign |
| MainViewModel.Project | composeApp/src/commonMain/kotlin/com/filippo/mediaplayerplayground/MainViewModel.kt:24-35 | `canPlay` is true exactly when not loading, and `showPlay` exactly when not playing; `hasPrevious`, `hasNext` and the progress fraction are copied over; title and artist come from the track's metadata |
| MainViewModel.ProjectedTimesReadBack | composeApp/src/commonMain/kotlin/com/filippo/mediaplayerplayground/MainViewModel.kt:31-32 | The elapsed-time and duration texts read back as the whole seconds of the elapsed time and of the duration |
| MainViewModel.TimesAgreeIff | composeApp/src/commonMain/kotlin/com/filippo/mediaplayerplayground/MainViewModel.kt:31-32 | The elapsed-time and duration texts are equal exactly when the elapsed time and the duration have the same whole seconds |
| MainViewModel.Exposed | composeApp/src/commonMain/kotlin/com/filippo/mediaplayerplayground/MainViewModel.kt:21-38 | The exposed state is the default `PlayerState` until a current track exists, and the projection of the latest playback and track afterwards |
| MainViewModel.DefaultIsNotDefaultProjected | composeApp/src/commonMain/kotlin/com/filippo/mediaplayerplayground/MainViewModel.kt:76-86 | The default `PlayerState` (play disabled, pause icon, previous enabled, empty times) differs from the projection of the default `Playback` (play enabled, play icon, previous disabled, `00:00`) |
| IosScreen.ScreenBeforeInit | composeApp/src/commonMain/kotlin/com/filippo/mediaplayerplayground/MainViewModel.kt:76-86 | Before `init` publishes a track, the screen shows the default state: play and next disabled, previous enabled, empty texts, progress 0 |
| IosScreen.ScreenAfterInit | composeApp/src/iosMain/kotlin/com/filippo/mediaplayerplayground/media/MediaPlayerImpl.kt:124-127 | After a successful `init` the screen shows the first track's title and artist |
| IosScreen.ButtonsAfterPlayStateChange | composeApp/src/commonMain/kotlin/com/filippo/mediaplayerplayground/MainViewModel.kt:26-29 | After the play-state observer runs: the next button is enabled exactly when tapping it moves to another track; previous is always enabled; the play icon shows exactly when the player is not playing |

## Left out

- Native AVFoundation and AVAudioSession calls are not modelled as such. Key-value observer registration and boundary time observers become flags and events. The audio-session category set by `init` (MediaPlayerImpl.kt:78-83) is dropped. A native status change happens only when its event is applied.
- IosMediaPlayer.PlayPause: `player.play()` and `pause()` set the playing flag immediately. The native player's asynchronous, possibly waiting `timeControlStatus` is not modelled.
- Audio-session activation errors are not modelled: they are caught and only logged (I/O).
- The branch where `URLWithString` returns nil in `loadTrack` is not modelled. The model assumes every track's URI makes an item.
- `updateProgress` is not modelled. It uses floating-point division by a duration that can be zero. Its effect on `duration` and `progress` is left out, so those `Playback` fields change only through the defaults.
- The 500 ms polling loop and coroutine-scope cancellation are not modelled (timing and concurrency). Only the state of the progress job is kept.
- The race between an earlier item's asynchronous asset load and a later `loadTrack` is not modelled (concurrency).
- A second `init` registers the play-state observer twice. The model keeps a single flag.
- Removing an unregistered observer is not modelled. This applies, for example, to a second `release`, where the native side raises an error.
- IosMediaPlayer.GoToNext and IosMediaPlayer.GoToPrevious require `IndexSafe()` (index in `-1..|tracks|`). Every state the adapter reaches has it: a new adapter, a successful or failed `init`, and every later step.
- `currentIndex` is a 32-bit Kotlin `Int`. It never leaves `-1..|tracks|`, so overflow cannot arise and is not modelled.
- MainViewModel.Exposed: the exposed state is computed from the current track only, not from its history. The view model's `filterNotNull` (MainViewModel.kt:23) would keep showing the last non-null track if the current track became null again. The iOS adapter never clears its track once set, so the two agree for it.
- Infinite `Duration` values are not modelled. A duration is a finite number of nanoseconds.
- DisplayTime.BuildDisplayTime: the contract covers non-negative durations only. Negative durations are rendered as Kotlin renders them, with only one example stated (`NegativeDisplayTimeExample`).
- The Android player, the Media3 mappers, the controller provider, the playback service, the dependency-injection modules and the Compose UI are not part of this model. They are glue that delegates to libraries.

=== FILE: display_time.dfy ===
/** The view model's `buildDisplayTime`: a duration rendered as
    `MM:SS`, built from Kotlin's `Duration.toComponents`, `Long.toString`,
    `Int.toString` and `String.padStart`. */
module DisplayTime {
  import opened Wrappers
  import opened MediaPlayer

  // ---------------------------------------------------------------------
  // Decimal digits
  // ---------------------------------------------------------------------

  predicate IsDigit(c: char) {
    '0' <= c <= '9'
  }

  predicate AllDigits(s: string) {
    forall i :: 0 <= i < |s| ==> IsDigit(s[i])
  }

  function DigitValue(c: char): (v: nat)
    requires IsDigit(c)
    ensures v < 10
  {
    (c as int) - ('0' as int)
  }

  function DigitChar(d: nat): (c: char)
    requires d < 10
    ensures IsDigit(c) && DigitValue(c) == d
  {
    (('0' as int) + d) as char
  }

  /** The number a string of decimal digits denotes, read most significant
      digit first; leading zeros contribute nothing. */
  function DecimalValue(s: string): (v: nat)
    requires AllDigits(s)
  {
    if |s| == 0 then 0
    else 10 * DecimalValue(s[..|s| - 1]) + DigitValue(s[|s| - 1])
  }

  function Pow10(k: nat): (r: nat)
    ensures 1 <= r
  {
    if k == 0 then 1 else 10 * Pow10(k - 1)
  }

  /** `toString()` of a non-negative integer: its shortest decimal
      representation, with no leading zero. */
  function NatToString(n: nat): (s: string)
    ensures 1 <= |s|
    ensures AllDigits(s)
    ensures DecimalValue(s) == n
    ensures s[0] == '0' <==> n == 0
    ensures |s| > 1 ==> s[0] != '0'
    ensures n < Pow10(|s|)
    ensures |s| > 1 ==> Pow10(|s| - 1) <= n
  {
    if n < 10 then [DigitChar(n)]
    else
      var front := NatToString(n / 10);
      var s := front + [DigitChar(n % 10)];
      assert s[..|s| - 1] == front;
      s
  }

  /** `toString()` of a Kotlin `Int` or `Long`: the shortest decimal
      digits of the magnitude, with a minus sign before them when the value
      is negative; no leading zero either way. */
  function IntToString(i: int): (s: string)
    ensures i >= 0 ==> AllDigits(s) && DecimalValue(s) == i
    ensures i >= 0 ==> 1 <= |s| && (|s| > 1 ==> s[0] != '0')
    ensures i < 0 ==> |s| >= 2 && s[0] == '-' && AllDigits(s[1..]) && DecimalValue(s[1..]) == -i
    ensures i < 0 ==> s[1] != '0'
  {
    if i < 0 then
      var s := "-" + NatToString(-i);
      assert s[1..] == NatToString(-i);
      s
    else NatToString(i)
  }

  /** `padStart(length, padChar)`: the string itself when it is already
      `length` long or longer, otherwise the string behind enough copies of
      `padChar` to make it exactly `length` long. */
  function PadStart(s: string, length: nat, padChar: char): (r: string)
    ensures |r| == if |s| >= length then |s| else length
    ensures r[|r| - |s|..] == s
    ensures forall i :: 0 <= i < |r| - |s| ==> r[i] == padChar
  {
    if length <= |s| then s
    else seq(length - |s|, _ => padChar) + s
  }

  // ---------------------------------------------------------------------
  // Duration components
  // ---------------------------------------------------------------------

  /** Integer division rounding toward zero, as Kotlin's `/` on `Long`:
      what is left over has the sign of the dividend and is smaller than
      the divisor. */
  function TruncDiv(a: int, b: int): (q: int)
    requires b > 0
    ensures a >= 0 ==> 0 <= a - b * q < b
    ensures a < 0 ==> -b < a - b * q <= 0
  {
    if a >= 0 then a / b else -((-a) / b)
  }

  /** The remainder that goes with `TruncDiv`, as Kotlin's `%` on `Long`:
      it has the sign of the dividend. */
  function TruncRem(a: int, b: int): (r: int)
    requires b > 0
    ensures a == b * TruncDiv(a, b) + r
    ensures a >= 0 ==> 0 <= r < b
    ensures a < 0 ==> -b < r <= 0
  {
    a - b * TruncDiv(a, b)
  }

  /** `Duration.inWholeSeconds`: the nanoseconds counted in whole seconds,
      rounding toward zero. */
  function WholeSeconds(d: Duration): (w: int)
    ensures d >= 0 ==> w >= 0 && 0 <= d - NanosPerSecond * w < NanosPerSecond
    ensures d < 0 ==> w <= 0 && -NanosPerSecond < d - NanosPerSecond * w <= 0
  {
    TruncDiv(d, NanosPerSecond)
  }

  datatype Components = Components(minutes: int, seconds: int)

  lemma DivisionIsUnique(a: int, b: int, q: int, r: int)
    requires b > 0 && 0 <= r < b && a == b * q + r
    ensures a / b == q && a % b == r
  {
    var q', r' := a / b, a % b;
    assert b * (q - q') == r' - r;
    if q' < q {
      MultipleAtLeast(b, q - q');
    } else if q < q' {
      MultipleAtLeast(b, q' - q);
    }
  }

  lemma MultipleAtLeast(b: int, k: int)
    requires b > 0 && k >= 1
    ensures b * k >= b
  {
    assert b * k == b + b * (k - 1);
  }

  /** Whole minutes can be counted from nanoseconds directly or from whole
      seconds: both round toward zero. */
  lemma {:induction false} MinutesFromSeconds(d: Duration)
    ensures TruncDiv(d, 60 * NanosPerSecond) == TruncDiv(TruncDiv(d, NanosPerSecond), 60)
  {
    var a := if d >= 0 then d else -d;
    var q := a / NanosPerSecond;
    var r := a % NanosPerSecond;
    var m := q / 60;
    var r2 := q % 60;
    assert a == NanosPerSecond * q + r;
    assert q == 60 * m + r2;
    assert a == (60 * NanosPerSecond) * m + (NanosPerSecond * r2 + r);
    DivisionIsUnique(a, 60 * NanosPerSecond, m, NanosPerSecond * r2 + r);
  }

  /** `Duration.toComponents { minutes, seconds, _ -> … }`: whole minutes
      (`inWholeMinutes`) and the seconds left over (`inWholeSeconds % 60`),
      both rounded toward zero. */
  function ToComponents(d: Duration): (c: Components)
    ensures 60 * c.minutes + c.seconds == WholeSeconds(d)
    ensures d >= 0 ==> c.minutes >= 0 && 0 <= c.seconds < 60
    ensures d < 0 ==> c.minutes <= 0 && -60 < c.seconds <= 0
  {
    MinutesFromSeconds(d);
    Components(TruncDiv(d, 60 * NanosPerSecond), TruncRem(WholeSeconds(d), 60))
  }

  /** For a non-negative duration the components are the quotient and
      remainder of its whole seconds by 60. */
  lemma ComponentsOfWholeSeconds(d: Duration)
    requires d >= 0
    ensures ToComponents(d) == Components(WholeSeconds(d) / 60, WholeSeconds(d) % 60)
  {
    var c := ToComponents(d);
    DivisionIsUnique(WholeSeconds(d), 60, c.minutes, c.seconds);
  }

  // ---------------------------------------------------------------------
  // buildDisplayTime
  // ---------------------------------------------------------------------

  lemma {:induction false} AllZerosValue(z: string)
    requires forall i :: 0 <= i < |z| ==> z[i] == '0'
    ensures AllDigits(z) && DecimalValue(z) == 0
  {
    if |z| > 0 {
      AllZerosValue(z[..|z| - 1]);
    }
  }

  lemma {:induction false} LeadingZerosAddNothing(z: string, s: string)
    requires forall i :: 0 <= i < |z| ==> z[i] == '0'
    requires AllDigits(s)
    ensures AllDigits(z + s)
    ensures DecimalValue(z + s) == DecimalValue(s)
  {
    if |s| == 0 {
      assert z + s == z;
      AllZerosValue(z);
    } else {
      var front := s[..|s| - 1];
      assert (z + s)[..|z + s| - 1] == z + front;
      LeadingZerosAddNothing(z, front);
    }
  }

  lemma Pow10Grows(j: nat, k: nat)
    requires j <= k
    ensures Pow10(j) <= Pow10(k)
  {
  }

  /** A number needs at most two digits exactly when it is below 100. */
  lemma TwoDigitsIffBelow100(n: nat)
    ensures |NatToString(n)| <= 2 <==> n < 100
  {
    var s := NatToString(n);
    if |s| <= 2 {
      Pow10Grows(|s|, 2);
    } else {
      Pow10Grows(2, |s| - 1);
    }
  }

  /** One field of the display, `toString().padStart(2, '0')`: at least
      two characters. A non-negative number gives its digits with zeros in
      front only up to two characters, so the field is exactly two long
      precisely when the number is below 100 and never starts with '0'
      when longer; a negative number gives its own `toString()`. */
  function Field(n: int): (r: string)
    ensures |r| >= 2
    ensures n >= 0 ==> AllDigits(r) && DecimalValue(r) == n
    ensures n >= 0 ==> (|r| == 2 <==> n < 100)
    ensures n >= 0 && |r| > 2 ==> r[0] != '0'
    ensures n < 0 ==> r[0] == '-' && AllDigits(r[1..]) && DecimalValue(r[1..]) == -n && r[1] != '0'
  {
    var s := IntToString(n);
    var r := PadStart(s, 2, '0');
    if n >= 0 then
      var z := r[..|r| - |s|];
      assert r == z + s;
      LeadingZerosAddNothing(z, s);
      TwoDigitsIffBelow100(n);
      r
    else r
  }

  /** `r` reads as the display of `minutes` and `seconds`: the seconds field
      is the last two characters and denotes `seconds`, a colon comes before
      it and is the only non-digit, the minutes field before the colon
      denotes `minutes`, and the text is exactly five characters long when,
      and only when, `minutes` is below 100; a longer minutes field has no
      leading zero. */
  predicate ShowsMinutesSeconds(r: string, minutes: nat, seconds: nat) {
    && |r| >= 5
    && r[|r| - 3] == ':'
    && (forall i :: 0 <= i < |r| && i != |r| - 3 ==> IsDigit(r[i]))
    && AllDigits(r[|r| - 2..]) && DecimalValue(r[|r| - 2..]) == seconds
    && AllDigits(r[..|r| - 3]) && DecimalValue(r[..|r| - 3]) == minutes
    && (|r| == 5 <==> minutes < 100)
    && (|r| > 5 ==> r[0] != '0')
  }

  lemma JoinDigits(a: string, b: string, minutes: nat, seconds: nat)
    requires AllDigits(a) && |a| >= 2 && DecimalValue(a) == minutes
    requires AllDigits(b) && |b| == 2 && DecimalValue(b) == seconds
    requires |a| == 2 <==> minutes < 100
    requires |a| > 2 ==> a[0] != '0'
    ensures ShowsMinutesSeconds(a + ":" + b, minutes, seconds)
  {
    var r := a + ":" + b;
    assert r[0] == a[0];
    assert r[..|r| - 3] == a;
    assert r[|r| - 2..] == b;
    forall i | 0 <= i < |r| && i != |r| - 3
      ensures IsDigit(r[i])
    {
      if i < |a| {
        assert r[i] == a[i];
      } else {
        assert r[i] == b[i - |a| - 1];
      }
    }
  }

  lemma JoinFields(minutes: int, seconds: int)
    requires minutes >= 0 && 0 <= seconds < 60
    ensures ShowsMinutesSeconds(Field(minutes) + ":" + Field(seconds), minutes, seconds)
  {
    JoinDigits(Field(minutes), Field(seconds), minutes, seconds);
  }

  lemma DisplayOfComponents(d: Duration)
    ensures var c := ToComponents(d);
      d >= 0 ==> ShowsMinutesSeconds(Field(c.minutes) + ":" + Field(c.seconds),
                                     WholeSeconds(d) / 60, WholeSeconds(d) % 60)
  {
    if d >= 0 {
      var c := ToComponents(d);
      ComponentsOfWholeSeconds(d);
      JoinFields(c.minutes, c.seconds);
    }
  }

  /** `buildDisplayTime`: the minutes field, a colon, the seconds field,
      each left-padded with '0' to two characters. A non-negative duration
      shows its whole minutes and the seconds left over, in 00..59. */
  function BuildDisplayTime(d: Duration): (r: string)
    ensures d >= 0 ==> ShowsMinutesSeconds(r, WholeSeconds(d) / 60, WholeSeconds(d) % 60)
  {
    var c := ToComponents(d);
    DisplayOfComponents(d);
    Field(c.minutes) + ":" + Field(c.seconds)
  }

  /** Reads a rendered `MM:SS` back as a number of whole seconds. */
  function ParseDisplayTime(s: string): (r: Option<int>)
    ensures r.Some? ==> 0 <= r.value
  {
    if |s| >= 4 && s[|s| - 3] == ':' && AllDigits(s[..|s| - 3]) && AllDigits(s[|s| - 2..])
       && DecimalValue(s[|s| - 2..]) < 60
    then Some(60 * DecimalValue(s[..|s| - 3]) + DecimalValue(s[|s| - 2..]))
    else None
  }

  lemma ReadsBackWholeSeconds(r: string, w: nat)
    requires ShowsMinutesSeconds(r, w / 60, w % 60)
    ensures ParseDisplayTime(r) == Some(w)
  {
    assert 60 * (w / 60) + w % 60 == w;
  }

  /** Reading a rendered non-negative duration back gives its whole
      seconds: the rendering loses only the fraction of a second. */
  lemma DisplayTimeRoundTrip(d: Duration)
    requires d >= 0
    ensures ParseDisplayTime(BuildDisplayTime(d)) == Some(WholeSeconds(d))
  {
    ReadsBackWholeSeconds(BuildDisplayTime(d), WholeSeconds(d));
  }

  /** Two non-negative durations render alike exactly when they hold the
      same number of whole seconds. */
  lemma DisplayTimeEqualIff(d1: Duration, d2: Duration)
    requires d1 >= 0 && d2 >= 0
    ensures BuildDisplayTime(d1) == BuildDisplayTime(d2) <==> WholeSeconds(d1) == WholeSeconds(d2)
  {
    DisplayTimeRoundTrip(d1);
    DisplayTimeRoundTrip(d2);
    if WholeSeconds(d1) == WholeSeconds(d2) {
      ComponentsOfWholeSeconds(d1);
      ComponentsOfWholeSeconds(d2);
    }
  }

  lemma FieldOfZero()
    ensures Field(0) == "00"
  {
    assert NatToString(0) == "0";
    assert IntToString(0) == "0";
    assert PadStart("0", 2, '0') == "00";
  }

  lemma FieldOfMinusOne()
    ensures Field(-1) == "-1"
  {
    assert NatToString(1) == "1";
    assert IntToString(-1) == "-1";
  }

  lemma FieldOfMinusThirty()
    ensures Field(-30) == "-30"
  {
    assert NatToString(3) == "3";
    assert NatToString(30) == "30";
    assert IntToString(-30) == "-30";
  }

  /** A zero duration renders as `00:00`. */
  lemma ZeroDisplayTime()
    ensures BuildDisplayTime(0) == "00:00"
  {
    ComponentsOfZero();
    FieldOfZero();
    assert BuildDisplayTime(0) == Field(0) + ":" + Field(0);
  }

  lemma ComponentsOfZero()
    ensures ToComponents(0) == Components(0, 0)
  {
    assert WholeSeconds(0) == 0;
    assert TruncDiv(0, 60 * NanosPerSecond) == 0;
    assert TruncRem(0, 60) == 0;
  }

  /** A negative duration renders as Kotlin renders it: a minus sign on
      each non-zero field, e.g. one and a half minutes back is `-1:-30`. */
  lemma NegativeDisplayTimeExample()
    ensures BuildDisplayTime(-90 * NanosPerSecond) == "-1:-30"
  {
    var d := -90 * NanosPerSecond;
    assert WholeSeconds(d) == -90;
    assert ToComponents(d) == Components(-1, -30);
    FieldOfMinusOne();
    FieldOfMinusThirty();
  }
}

=== FILE: ios_media_player.dfy ===
/** The iOS `MediaPlayerImpl`: a fixed track list navigated by index over an
    `AVPlayer`, and the two key-value observers that republish the player's
    state as a `Playback` snapshot.

    The native player and its audio session are reduced to the few flags the
    adapter sets or reads; every call into them becomes an update of those
    flags, and every native callback becomes an event function. */
module IosMediaPlayer {
  import opened Wrappers
  import opened MediaPlayer

  /** `AVPlayerItem.status`. */
  datatype ItemStatus = Unknown | ReadyToPlay | Failed

  /** The `AVPlayer` and `AVAudioSession`, as far as the adapter sees them. */
  datatype Native = Native(
    playing: bool,          // timeControlStatus is "playing"
    atStart: bool,          // the current time is zero
    sessionActive: bool,    // the audio session is active
    item: Option<Track>,    // the current item, named by the track it was made from
    itemStatus: ItemStatus) // status of the current item

  /** The progress-polling coroutine: never launched (or released), running,
      or cancelled but still referenced. */
  datatype ProgressJob = NoJob | Running | Cancelled

  /** What `loadTrack` throws: `tracks[trackIndex]` out of range. The
      exception leaves the adapter in the state it had reached when the read
      failed, which is carried as `after`. */
  datatype Error = IndexOutOfBounds(after: Player)

  /** The adapter's state: its own fields, the two flows it publishes, and
      which observers it has registered. */
  datatype Player = Player(
    native: Native,
    tracks: seq<Track>,
    currentIndex: int,
    playback: Playback,
    currentTrack: Option<Track>,
    progressJob: ProgressJob,
    trackEndObserver: bool,  // a boundary-time observer is registered
    stateObserver: bool,     // the timeControlStatus observer is registered
    itemObserver: bool)      // the status observer is registered on the current item
  {
    /** `tracks.lastIndex`: -1 for an empty list. */
    function LastIndex(): (r: int) {
      |tracks| - 1
    }

    /** The index points at a track and `currentTrack` is that track. */
    predicate Initialized() {
      0 <= currentIndex <= LastIndex() && currentTrack == Some(tracks[currentIndex])
    }

    /** Not yet initialized (index -1, no tracks, no current track), or
        initialized. */
    predicate Valid() {
      || (currentIndex == -1 && tracks == [] && currentTrack == None)
      || Initialized()
    }

    /** The index lies in `-1..|tracks|`, so neither `goToNext` nor
        `goToPrevious` reads outside the list when it steps from it. Every
        state the adapter reaches has it, including the one an `init` on an
        empty list leaves behind (index 0, no tracks). */
    predicate IndexSafe() {
      -1 <= currentIndex <= |tracks|
    }
  }

  /** A newly constructed adapter over a given native player: index -1, no
      tracks, the default `Playback`, no current track, no job, no
      observers. */
  function New(native: Native): (p: Player)
    ensures p.Valid() && !p.Initialized()
    ensures p.currentTrack == None && p.playback == DefaultPlayback
    ensures p.native == native && p.progressJob == NoJob
    ensures !p.stateObserver && !p.trackEndObserver && !p.itemObserver
  {
    Player(native, [], -1, DefaultPlayback, None, NoJob, false, false, false)
  }

  // ---------------------------------------------------------------------
  // Native effects
  // ---------------------------------------------------------------------

  /** `player.play()`: the player plays; nothing else changes. */
  function NativePlay(p: Player): (r: Player)
    ensures r.native.playing
    ensures r.native.(playing := p.native.playing) == p.native
    ensures r.(native := p.native) == p
  {
    p.(native := p.native.(playing := true))
  }

  /** `player.pause()`: the player stops playing; nothing else changes. */
  function NativePause(p: Player): (r: Player)
    ensures !r.native.playing
    ensures r.native.(playing := p.native.playing) == p.native
    ensures r.(native := p.native) == p
  {
    p.(native := p.native.(playing := false))
  }

  /** `setSessionState(isActive)`: the session is active exactly when asked
      to be; nothing else changes. A failure to (de)activate is only logged
      and is not modelled. */
  function SetSessionState(p: Player, isActive: bool): (r: Player)
    ensures r.native.sessionActive == isActive
    ensures r.native.(sessionActive := p.native.sessionActive) == p.native
    ensures r.(native := p.native) == p
  {
    p.(native := p.native.(sessionActive := isActive))
  }

  /** `seekToInitialTime`: the player is at time zero; nothing else
      changes. */
  function SeekToInitialTime(p: Player): (r: Player)
    ensures r.native.atStart
    ensures r.native.(atStart := p.native.atStart) == p.native
    ensures r.(native := p.native) == p
  {
    p.(native := p.native.(atStart := true))
  }

  /** The private `play`: activate the session, then play; the position
      and the current item are untouched. */
  function Play(p: Player): (r: Player)
    ensures r.native.playing && r.native.sessionActive
    ensures r.native.(playing := p.native.playing, sessionActive := p.native.sessionActive) == p.native
    ensures r.(native := p.native) == p
  {
    NativePlay(SetSessionState(p, true))
  }

  /** The private `pause`: pause, then deactivate the session; the position
      and the current item are untouched. */
  function Pause(p: Player): (r: Player)
    ensures !r.native.playing && !r.native.sessionActive
    ensures r.native.(playing := p.native.playing, sessionActive := p.native.sessionActive) == p.native
    ensures r.(native := p.native) == p
  {
    SetSessionState(NativePause(p), false)
  }

  /** The private `stop`: pause, rewind, deactivate the session. */
  function Stop(p: Player): (r: Player)
    ensures !r.native.playing && r.native.atStart && !r.native.sessionActive
    ensures r.native.item == p.native.item && r.native.itemStatus == p.native.itemStatus
    ensures r.(native := p.native) == p
  {
    SetSessionState(SeekToInitialTime(NativePause(p)), false)
  }

  // ---------------------------------------------------------------------
  // Track loading
  // ---------------------------------------------------------------------

  /** `removeCurrentItemObservers`: the boundary-time observer is removed
      and forgotten, and the status observer is removed from the current
      item; nothing else changes. */
  function RemoveCurrentItemObservers(p: Player): (r: Player)
    ensures !r.trackEndObserver && !r.itemObserver
    ensures r.(trackEndObserver := p.trackEndObserver, itemObserver := p.itemObserver) == p
  {
    p.(trackEndObserver := false, itemObserver := false)
  }

  /** `loadTrack(trackIndex)`: point the index at the track, drop the old
      item's observers, publish the track, and make a new item for it
      (starting at time zero, status unknown) with the status observer on
      it. The transport and the session are left as they were.
      `goToNext` and `goToPrevious` pass an index inside the list; `init`
      on an empty list does not, and `Init` models the read that then
      throws. */
  function LoadTrack(p: Player, i: int): (r: Player)
    requires 0 <= i < |p.tracks|
    ensures r.Initialized() && r.currentIndex == i && r.currentTrack == Some(p.tracks[i])
    ensures r.native.item == Some(p.tracks[i]) && r.native.itemStatus == Unknown && r.native.atStart
    ensures r.itemObserver && !r.trackEndObserver
    ensures r.native.playing == p.native.playing && r.native.sessionActive == p.native.sessionActive
    ensures r.tracks == p.tracks && r.playback == p.playback && r.progressJob == p.progressJob
    ensures r.stateObserver == p.stateObserver
  {
    var q := RemoveCurrentItemObservers(p.(currentIndex := i));
    var track := p.tracks[i];
    q.(currentTrack := Some(track),
       native := q.native.(item := Some(track), itemStatus := Unknown, atStart := true),
       itemObserver := true)
  }

  // ---------------------------------------------------------------------
  // Public operations
  // ---------------------------------------------------------------------

  /** `init(tracks)`: register the play-state observer (the audio-session
      category is not modelled), keep the list, and load its first track.
      With no tracks, `loadTrack(0)` has already set the index to 0 and
      removed the item observers when its read of `tracks[0]` throws; the
      exception carries that state. */
  function Init(p: Player, tracks: seq<Track>): (r: Result<Player, Error>)
    ensures r.Success? <==> |tracks| > 0
    ensures r.Success? ==> r.value.Initialized() && r.value.tracks == tracks
    ensures r.Success? ==> r.value.currentIndex == 0 && r.value.currentTrack == Some(tracks[0])
    ensures r.Success? ==> r.value.stateObserver && r.value.native.item == Some(tracks[0])
    ensures r.Success? ==>
      && r.value.native.playing == p.native.playing && r.value.native.sessionActive == p.native.sessionActive
      && r.value.native.itemStatus == Unknown && r.value.native.atStart
      && r.value.playback == p.playback && r.value.progressJob == p.progressJob
      && r.value.itemObserver && !r.value.trackEndObserver
    ensures r.Failure? ==>
      var q := r.error.after;
      && q.currentIndex == 0 && q.tracks == [] && q.stateObserver
      && !q.trackEndObserver && !q.itemObserver
      && q.currentTrack == p.currentTrack && q.native == p.native && q.playback == p.playback
      && q.progressJob == p.progressJob
      && q.IndexSafe() && !q.Valid()
  {
    var q := RemoveCurrentItemObservers(p.(stateObserver := true, tracks := tracks, currentIndex := 0));
    if |tracks| == 0 then Failure(IndexOutOfBounds(q))
    else Success(LoadTrack(q, 0))
  }

  /** `release`: stop, unregister the play-state observer, cancel and drop
      the progress job. Index, track and item observers are untouched. */
  function Release(p: Player): (r: Player)
    ensures !r.native.playing && r.native.atStart && !r.native.sessionActive
    ensures r.progressJob == NoJob && !r.stateObserver
    ensures r.currentIndex == p.currentIndex && r.currentTrack == p.currentTrack && r.tracks == p.tracks
    ensures r.playback == p.playback
    ensures r.trackEndObserver == p.trackEndObserver && r.itemObserver == p.itemObserver
    ensures p.Valid() ==> r.Valid()
    ensures r.native.item == p.native.item && r.native.itemStatus == p.native.itemStatus
  {
    Stop(p).(stateObserver := false, progressJob := NoJob)
  }

  /** `playPause`: pause (and deactivate the session) when playing,
      otherwise activate the session and play. Only the transport and the
      session change. */
  function PlayPause(p: Player): (r: Player)
    ensures r.native.playing == !p.native.playing
    ensures r.native.sessionActive == r.native.playing
    ensures r.(native := p.native) == p
    ensures r.native.(playing := p.native.playing, sessionActive := p.native.sessionActive) == p.native
  {
    if p.native.playing then Pause(p) else Play(p)
  }

  /** `goToPrevious`: before the first track, only rewind; otherwise load
      the previous track and play it, calling the player directly so the
      session is left as it was. */
  function GoToPrevious(p: Player): (r: Player)
    requires p.IndexSafe()
    ensures r.IndexSafe() && r.tracks == p.tracks && r.playback == p.playback
    ensures p.Valid() ==> r.Valid()
    ensures p.Initialized() ==> r.Initialized()
    ensures p.currentIndex - 1 < 0 ==>
      r.currentIndex == p.currentIndex && r.currentTrack == p.currentTrack && r.native.atStart
      && r.native.playing == p.native.playing && r.native.sessionActive == p.native.sessionActive
    ensures p.currentIndex - 1 < 0 ==>
      r.(native := p.native) == p && r.native.(atStart := p.native.atStart) == p.native
    ensures p.currentIndex - 1 >= 0 ==>
      r.currentIndex == p.currentIndex - 1 && r.currentTrack == Some(p.tracks[p.currentIndex - 1])
      && r.native.playing && r.native.atStart && r.native.sessionActive == p.native.sessionActive
    ensures p.currentIndex - 1 >= 0 ==>
      && r.native.item == Some(p.tracks[p.currentIndex - 1]) && r.native.itemStatus == Unknown
      && r.itemObserver && !r.trackEndObserver
      && r.stateObserver == p.stateObserver && r.progressJob == p.progressJob
  {
    if p.currentIndex - 1 < 0 then SeekToInitialTime(p)
    else NativePlay(LoadTrack(p, p.currentIndex - 1))
  }

  /** `goToNext`: past the last track (or with no tracks at all), stop;
      otherwise load the next track, activate the session and play. */
  function GoToNext(p: Player): (r: Player)
    requires p.IndexSafe()
    ensures r.IndexSafe() && r.tracks == p.tracks && r.playback == p.playback
    ensures p.Valid() ==> r.Valid()
    ensures p.Initialized() ==> r.Initialized()
    ensures p.currentIndex + 1 > p.LastIndex() ==>
      r.currentIndex == p.currentIndex && r.currentTrack == p.currentTrack
      && !r.native.playing && r.native.atStart && !r.native.sessionActive
    ensures p.currentIndex + 1 > p.LastIndex() ==>
      r.(native := p.native) == p
      && r.native.item == p.native.item && r.native.itemStatus == p.native.itemStatus
    ensures p.currentIndex + 1 <= p.LastIndex() ==>
      r.currentIndex == p.currentIndex + 1 && r.currentTrack == Some(p.tracks[p.currentIndex + 1])
      && r.native.playing && r.native.sessionActive && r.native.atStart && !r.trackEndObserver
    ensures p.currentIndex + 1 <= p.LastIndex() ==>
      && r.native.item == Some(p.tracks[p.currentIndex + 1]) && r.native.itemStatus == Unknown
      && r.itemObserver && r.stateObserver == p.stateObserver && r.progressJob == p.progressJob
  {
    if p.currentIndex + 1 > p.LastIndex() then Stop(p)
    else Play(LoadTrack(p, p.currentIndex + 1))
  }

  // ---------------------------------------------------------------------
  // Native callbacks
  // ---------------------------------------------------------------------

  /** `progressJob?.cancel()`: a job that exists ends up cancelled (an
      already cancelled one stays so); no job stays no job. */
  function CancelJob(j: ProgressJob): (r: ProgressJob)
    ensures r != Running
    ensures r == NoJob <==> j == NoJob
  {
    if j == NoJob then NoJob else Cancelled
  }

  /** The timeControlStatus observer, when registered: republish the
      playing flag, `hasPrevious = true` and whether a next track exists,
      then start polling progress while playing and cancel it otherwise.
      The other `Playback` fields keep their values. */
  function OnTimeControlStatusChanged(p: Player): (r: Player)
    ensures p.stateObserver ==>
      && r.playback.isPlaying == p.native.playing
      && r.playback.hasPrevious
      && (r.playback.hasNext <==> p.currentIndex + 1 <= p.LastIndex())
      && (r.progressJob == Running <==> p.native.playing)
      && (!p.native.playing ==> r.progressJob == CancelJob(p.progressJob))
    ensures p.stateObserver ==>
      r.playback.(isPlaying := p.playback.isPlaying, hasPrevious := p.playback.hasPrevious,
                  hasNext := p.playback.hasNext) == p.playback
    ensures r.(playback := p.playback, progressJob := p.progressJob) == p
    ensures !p.stateObserver ==> r == p
  {
    if !p.stateObserver then p
    else
      var playback := p.playback.(
        isPlaying := p.native.playing,
        hasPrevious := true,
        hasNext := p.currentIndex + 1 <= p.LastIndex());
      p.(playback := playback,
         progressJob := if p.native.playing then Running else CancelJob(p.progressJob))
  }

  /** The current item's status changes; when the status observer is on
      it, `isLoading` is republished as "the status is still unknown". */
  function OnItemStatusChanged(p: Player, status: ItemStatus): (r: Player)
    ensures p.native.item.Some? && p.itemObserver ==> (r.playback.isLoading <==> status == Unknown)
    ensures !(p.native.item.Some? && p.itemObserver) ==> r.playback == p.playback
    ensures r.playback.(isLoading := p.playback.isLoading) == p.playback
    ensures r.(playback := p.playback, native := p.native) == p
    ensures p.native.item.Some? ==> r.native.itemStatus == status
    ensures r.native.(itemStatus := p.native.itemStatus) == p.native
    ensures r.currentIndex == p.currentIndex && r.currentTrack == p.currentTrack && r.tracks == p.tracks
  {
    if p.native.item.None? then p
    else
      var q := p.(native := p.native.(itemStatus := status));
      if q.itemObserver then q.(playback := q.playback.(isLoading := status == Unknown)) else q
  }

  /** The current item's duration has loaded: the boundary-time observer
      for the track's end is registered. */
  function OnAssetLoaded(p: Player): (r: Player)
    ensures p.native.item.Some? ==> r.trackEndObserver
    ensures r.(trackEndObserver := p.trackEndObserver) == p
  {
    if p.native.item.None? then p else p.(trackEndObserver := true)
  }

  /** Playback reaches the end of the track: the boundary observer, if
      registered, moves on as `goToNext` does. */
  function OnTrackEnd(p: Player): (r: Player)
    requires p.IndexSafe()
    ensures r.IndexSafe() && r.tracks == p.tracks
    ensures p.Valid() ==> r.Valid()
    ensures p.trackEndObserver ==> r == GoToNext(p)
    ensures !p.trackEndObserver ==> r == p
  {
    if p.trackEndObserver then GoToNext(p) else p
  }

  /** The native player's clock, not a callback of the adapter: time
      passes, and a playing player leaves time zero. Only the position
      changes. */
  function OnTimeAdvanced(p: Player): (r: Player)
    ensures r.native.atStart <==> p.native.atStart && !p.native.playing
    ensures r.native.(atStart := p.native.atStart) == p.native
    ensures r.(native := p.native) == p
  {
    if p.native.playing then p.(native := p.native.(atStart := false)) else p
  }

  // ---------------------------------------------------------------------
  // Runs of events
  // ---------------------------------------------------------------------

  /** Everything that can happen to the adapter after `init`: the user's
      commands, the native callbacks, and `release`. */
  datatype Event =
    | PlayPauseTapped
    | NextTapped
    | PreviousTapped
    | TrackEnded
    | TimeControlStatusChanged
    | ItemStatusChanged(status: ItemStatus)
    | AssetLoaded
    | TimeAdvanced
    | Released

  function Step(p: Player, e: Event): (r: Player)
    requires p.IndexSafe()
    ensures r.IndexSafe() && r.tracks == p.tracks
  {
    match e
    case PlayPauseTapped => PlayPause(p)
    case NextTapped => GoToNext(p)
    case PreviousTapped => GoToPrevious(p)
    case TrackEnded => OnTrackEnd(p)
    case TimeControlStatusChanged => OnTimeControlStatusChanged(p)
    case ItemStatusChanged(s) => OnItemStatusChanged(p, s)
    case AssetLoaded => OnAssetLoaded(p)
    case TimeAdvanced => OnTimeAdvanced(p)
    case Released => Release(p)
  }

  /** One step keeps a valid adapter valid and an initialized adapter
      initialized. */
  lemma StepKeepsIndexInRange(p: Player, e: Event)
    requires p.IndexSafe()
    ensures p.Valid() ==> Step(p, e).Valid()
    ensures p.Initialized() ==> Step(p, e).Initialized()
  {
  }

  function Run(p: Player, events: seq<Event>): (r: Player)
    requires p.IndexSafe()
    ensures r.IndexSafe() && r.tracks == p.tracks
    decreases |events|
  {
    if |events| == 0 then p
    else
      StepKeepsIndexInRange(p, events[0]);
      Run(Step(p, events[0]), events[1..])
  }

  /** After `init`, the index stays inside `0..lastIndex` (and the current
      track is the one it points at) whatever the user taps and whatever
      the native player reports. */
  lemma {:induction false} IndexStaysInRange(p: Player, events: seq<Event>)
    requires p.Initialized()
    ensures Run(p, events).Initialized()
    ensures Run(p, events).tracks == p.tracks
    ensures 0 <= Run(p, events).currentIndex <= p.LastIndex()
    decreases |events|
  {
    if |events| > 0 {
      StepKeepsIndexInRange(p, events[0]);
      IndexStaysInRange(Step(p, events[0]), events[1..]);
    }
  }

  // ---------------------------------------------------------------------
  // Relations between operations
  // ---------------------------------------------------------------------

  /** The published `hasNext` is true exactly when `goToNext` would move to
      another track rather than stop. */
  lemma HasNextIffNextAdvances(p: Player)
    requires p.IndexSafe() && p.stateObserver
    ensures OnTimeControlStatusChanged(p).playback.hasNext
        <==> GoToNext(p).currentIndex == p.currentIndex + 1
  {
  }

  /** `goToPrevious` undoes a `goToNext` that advanced. */
  lemma PreviousUndoesNext(p: Player)
    requires p.Initialized() && p.currentIndex < p.LastIndex()
    ensures GoToNext(p).Valid()
    ensures GoToPrevious(GoToNext(p)).currentIndex == p.currentIndex
    ensures GoToPrevious(GoToNext(p)).currentTrack == p.currentTrack
  {
  }

  /** `goToNext` undoes a `goToPrevious` that stepped back. */
  lemma NextUndoesPrevious(p: Player)
    requires p.Initialized() && p.currentIndex > 0
    ensures GoToPrevious(p).Valid()
    ensures GoToNext(GoToPrevious(p)).currentIndex == p.currentIndex
    ensures GoToNext(GoToPrevious(p)).currentTrack == p.currentTrack
  {
  }

  /** At the last track (or with no tracks) `goToNext` stops, and stopping
      again changes nothing. */
  lemma NextAtEndIsIdempotent(p: Player)
    requires p.IndexSafe() && p.currentIndex + 1 > p.LastIndex()
    ensures GoToNext(GoToNext(p)) == GoToNext(p)
  {
  }

  /** Tapping play/pause twice restores the player when its session was
      active exactly while it played. */
  lemma PlayPauseTwiceRestores(p: Player)
    requires p.native.sessionActive == p.native.playing
    ensures PlayPause(PlayPause(p)) == p
  {
  }

  /** Unlike `goToNext`, `goToPrevious` plays without activating the
      session: after a pause, stepping back plays with the session still
      inactive. */
  lemma PreviousAfterPausePlaysWithInactiveSession(p: Player)
    requires p.Initialized() && p.currentIndex > 0 && p.native.playing
    ensures !GoToPrevious(PlayPause(p)).native.sessionActive
    ensures GoToPrevious(PlayPause(p)).native.playing
  {
  }

  /** After an `init` on an empty list has thrown, the adapter still steps
      safely: "next" stops, "previous" only rewinds, and the play-state
      observer publishes that there is no next track. */
  lemma AfterFailedInit(p: Player)
    ensures Init(p, []).Failure?
    ensures GoToNext(Init(p, []).error.after).currentIndex == 0
    ensures !GoToNext(Init(p, []).error.after).native.playing
    ensures GoToPrevious(Init(p, []).error.after).currentIndex == 0
    ensures !OnTimeControlStatusChanged(Init(p, []).error.after).playback.hasNext
  {
  }
}

=== FILE: ios_screen.dfy ===
/** The screen as the shared view model shows it when the iOS adapter is
    the player behind it: what the buttons and texts say about the
    adapter's state. */
module IosScreen {
  import opened MediaPlayer
  import opened MainViewModel
  import opened IosMediaPlayer

  /** The view model's `state` over the adapter's two flows. */
  function Screen(p: Player): (s: PlayerState) {
    Exposed(p.playback, p.currentTrack)
  }

  /** Until `init` publishes a track the screen shows the default state
      (play and next disabled, previous enabled, empty texts, no
      progress). */
  lemma ScreenBeforeInit(native: Native)
    ensures Screen(New(native)) == DefaultPlayerState
    ensures !Screen(New(native)).canPlay && !Screen(New(native)).showPlay
    ensures Screen(New(native)).hasPrevious && !Screen(New(native)).hasNext
    ensures Screen(New(native)).trackTitle == "" && Screen(New(native)).currentTime == ""
    ensures Screen(New(native)).currentProgress == 0.0
  {
  }

  /** Once `init` succeeds the screen names the first track. */
  lemma ScreenAfterInit(p: Player, tracks: seq<Track>)
    requires |tracks| > 0
    ensures Init(p, tracks).Success?
    ensures Screen(Init(p, tracks).value).trackTitle == tracks[0].metadata.title
    ensures Screen(Init(p, tracks).value).trackArtist == tracks[0].metadata.artist
  {
  }

  /** After the play-state observer runs, the next button is enabled
      exactly when tapping it moves to another track, the previous button
      is always enabled, and the play icon shows exactly when the player
      is not playing. */
  lemma ButtonsAfterPlayStateChange(p: Player)
    requires p.Initialized() && p.stateObserver
    ensures Screen(OnTimeControlStatusChanged(p)).hasNext
        <==> GoToNext(p).currentIndex == p.currentIndex + 1
    ensures Screen(OnTimeControlStatusChanged(p)).hasPrevious
    ensures Screen(OnTimeControlStatusChanged(p)).showPlay <==> !p.native.playing
  {
    HasNextIffNextAdvances(p);
  }
}

=== FILE: main_view_model.dfy ===
/** The shared view model: the UI-facing `PlayerState` derived from the
    player's `Playback` and current `Track`. */
module MainViewModel {
  import opened Wrappers
  import opened MediaPlayer
  import opened DisplayTime

  /** What the screen binds to: button enablement, the play/pause icon,
      the two time texts, the track's title and artist, and the progress
      bar's fraction. */
  datatype PlayerState = PlayerState(
    canPlay: bool,
    showPlay: bool,
    hasPrevious: bool,
    hasNext: bool,
    currentTime: string,
    duration: string,
    trackTitle: string,
    trackArtist: string,
    currentProgress: real)

  /** `PlayerState()`: everything disabled except "previous", empty texts. */
  const DefaultPlayerState: PlayerState := PlayerState(
    canPlay := false,
    showPlay := false,
    hasPrevious := true,
    hasNext := false,
    currentTime := "",
    duration := "",
    trackTitle := "",
    trackArtist := "",
    currentProgress := 0.0)

  /** The `combine` step: play is possible once loading is over, the play
      icon shows while not playing, navigation and progress are passed
      through, both times are rendered by `buildDisplayTime`, and the texts
      come from the track's metadata. */
  function Project(playback: Playback, track: Track): (s: PlayerState)
    ensures s.canPlay <==> !playback.isLoading
    ensures s.showPlay <==> !playback.isPlaying
    ensures s.hasPrevious == playback.hasPrevious && s.hasNext == playback.hasNext
    ensures s.currentProgress == playback.progress.position
    ensures s.trackTitle == track.metadata.title && s.trackArtist == track.metadata.artist
  {
    PlayerState(
      canPlay := !playback.isLoading,
      showPlay := !playback.isPlaying,
      hasPrevious := playback.hasPrevious,
      hasNext := playback.hasNext,
      currentTime := BuildDisplayTime(playback.progress.currentTime),
      duration := BuildDisplayTime(playback.duration),
      trackTitle := track.metadata.title,
      trackArtist := track.metadata.artist,
      currentProgress := playback.progress.position)
  }

  /** The value of `state`: the default until the current track is
      non-null, then the projection of the latest playback and track. */
  function Exposed(playback: Playback, currentTrack: Option<Track>): (s: PlayerState)
    ensures currentTrack.None? ==> s == DefaultPlayerState
    ensures currentTrack.Some? ==> s == Project(playback, currentTrack.value)
  {
    match currentTrack
    case None => DefaultPlayerState
    case Some(track) => Project(playback, track)
  }

  /** Each time text reads back as the whole seconds of the duration it
      renders. */
  lemma ProjectedTimesReadBack(playback: Playback, track: Track)
    requires playback.progress.currentTime >= 0 && playback.duration >= 0
    ensures ParseDisplayTime(Project(playback, track).currentTime)
         == Some(WholeSeconds(playback.progress.currentTime))
    ensures ParseDisplayTime(Project(playback, track).duration)
         == Some(WholeSeconds(playback.duration))
  {
    DisplayTimeRoundTrip(playback.progress.currentTime);
    DisplayTimeRoundTrip(playback.duration);
  }

  /** The elapsed-time and duration texts are equal exactly when the two
      durations hold the same number of whole seconds. */
  lemma TimesAgreeIff(playback: Playback, track: Track)
    requires playback.progress.currentTime >= 0 && playback.duration >= 0
    ensures Project(playback, track).currentTime == Project(playback, track).duration
        <==> WholeSeconds(playback.progress.currentTime) == WholeSeconds(playback.duration)
  {
    DisplayTimeEqualIff(playback.progress.currentTime, playback.duration);
  }

  /** The default screen is not what the default playback projects to:
      once a track appears, play becomes enabled, the play icon shows,
      "previous" is disabled and both times read `00:00`. */
  lemma DefaultIsNotDefaultProjected(track: Track)
    ensures Project(DefaultPlayback, track).canPlay && !DefaultPlayerState.canPlay
    ensures Project(DefaultPlayback, track).showPlay && !DefaultPlayerState.showPlay
    ensures !Project(DefaultPlayback, track).hasPrevious && DefaultPlayerState.hasPrevious
    ensures Project(DefaultPlayback, track).currentTime == "00:00" && DefaultPlayerState.currentTime == ""
    ensures Project(DefaultPlayback, track).duration == "00:00" && DefaultPlayerState.duration == ""
  {
    ZeroDisplayTime();
  }
}

=== FILE: media_player.dfy ===
/** The value types shared by every platform's player: the immutable
    `Playback` snapshot, its `Progress`, and the `Track` being played. */
module MediaPlayer {

  /** A `kotlin.time.Duration`, as a whole number of nanoseconds. A negative
      value is a negative duration; the infinite durations are not modelled. */
  type Duration = int

  const NanosPerSecond: int := 1_000_000_000

  /** How far playback has gone: `position` is the elapsed fraction of the
      track (a Kotlin `Float`, here a real) and `currentTime` the elapsed time. */
  datatype Progress = Progress(position: real, currentTime: Duration)

  /** A snapshot of the native player's transport state. It is never
      mutated: every update publishes a copy with some fields replaced. */
  datatype Playback = Playback(
    isLoading: bool,
    isPlaying: bool,
    duration: Duration,
    progress: Progress,
    hasNext: bool,
    hasPrevious: bool)

  /** Display metadata of a track. */
  datatype Metadata = Metadata(title: string, artist: string, albumTitle: string, artworkUri: string)

  /** A playable item: an identifier, the URI of its media, and its metadata. */
  datatype Track = Track(id: string, uri: string, metadata: Metadata)

  /** `Progress()`: nothing played yet. */
  const DefaultProgress: Progress := Progress(position := 0.0, currentTime := 0)

  /** `Playback()`: idle, nothing loaded, no neighbouring tracks. */
  const DefaultPlayback: Playback := Playback(
    isLoading := false,
    isPlaying := false,
    duration := 0,
    progress := DefaultProgress,
    hasNext := false,
    hasPrevious := false)

  /** The defaults describe an idle player with nothing loaded: not
      loading, not playing, zero duration, nothing elapsed, and neither a
      next nor a previous track. */
  lemma DefaultsAreIdle()
    ensures !DefaultPlayback.isLoading && !DefaultPlayback.isPlaying
    ensures DefaultPlayback.duration == 0
    ensures !DefaultPlayback.hasNext && !DefaultPlayback.hasPrevious
    ensures DefaultPlayback.progress == DefaultProgress
    ensures DefaultProgress.position == 0.0 && DefaultProgress.currentTime == 0
  {
  }
}

=== FILE: wrappers.dfy ===
/** Wrappers standing in for Kotlin's nullable values and
    thrown exceptions. */
module Wrappers {

  /** A value that may be absent (a Kotlin `T?`). */
  datatype Option<+T> = None | Some(value: T)

  /** The outcome of an operation that either returns a value or throws. */
  datatype Result<+T, +E> = Success(value: T) | Failure(error: E)
}
